=== FILE: README.md ===
# Playbox purchase SDK: purchase gating and entitlement ledger

This project models the core of the Playbox in-app purchase SDK for Unity in Dafny:

- the product catalog loaded from `Products.json`;
- the entitlement ledger kept in the player preference store:
  - the owned non-consumable ids, stored under the key `NonConsumablePurchases`;
  - the consumable counters, keyed by product id;
- the three-step purchase guard of the abstract `PurchaseManager`;
- the callback handlers of the platform managers that update the ledger and raise the
  `OnPurchaseSuccess` / `OnPurchaseFailed` notifications.

The Unity store SDK is treated as an opaque adapter. Each manager records what it asks of the store:

- a `ready` flag stands for `_controller != null` (Google Play, test) or `_storeController != null`
  (universal);
- `initiated` / `requested` logs record `InitiatePurchase(id)` / `PurchaseProduct(id)`;
- `confirmed` records `ConfirmPurchase(order)`;
- `registrations` / `fetches` record the product definitions handed to `UnityPurchasing.Initialize` /
  `FetchProducts`.

Notifications are appended to an `events` trace.

## Modules

- `Primitives` (primitives.dfy): nullable values (`Option`), C#'s 32-bit `int`, and its unchecked wrap-around.
- `Catalog` (catalog.dfy): `ProductJson` with its field initialisers as constructor defaults, and the read-only
  `RuntimeProduct` view of it. It also holds the legacy `RuntimeProduct` kept in BasePurchaseManager.cs
  (here `LegacyRuntimeProduct`), first-match lookup (`Find`), and the catalog a load builds (`Project`).
- `StoreAdapter` (store_adapter.dfy): the store's product kinds, product definitions, orders, and the
  catalog-to-definition mapping that all three store-backed managers perform before registering with the store.
- `Core` (purchase_manager.dfy): the ledger and guard as value functions with their lemmas, and the class
  `PurchaseManager`.
- `GooglePlay`, `TestStore`, `Universal` (google_play.dfy, test_store.dfy, universal.dfy): the platform
  managers.
- `AppStore` (app_store.dfy): the older `BasePurchaseManager`, which has a catalog and notifications but no
  ledger, and `AppStorePurchaseManager`.

C# inheritance is modelled by composition. Each platform class holds its inherited part as `core` (or `base`).
The abstract `Purchase` returns the product it would hand to `ProcessPlatformPurchase`, or None after raising
the failure that stopped it. The platform's own `Purchase` then calls its hook with that product.

The test manager behaves identically to the Google Play manager apart from the editor fake-store setup and
its logging, so `TestStore` repeats `GooglePlay`.
The Google Play and test managers map types with their own builder loops
(Runtime/Platforms/GooglePlayPurchaseManager.cs:31-39, Runtime/Platforms/TestPurchaseManager.cs:37-44).
Those loops map exactly like the universal manager's, so all three use `StoreAdapter.BuildProductDefinitions`.

The model follows the code, including where it does less than a purchase SDK is often expected to do:

- no single-flight tracking of purchases in progress, and no attempt ids;
- a consumable delivered through `ProcessPurchase` is credited 1, not its `Amount`;
- the universal manager credits consumables nothing;
- `AddConsumable` accepts any amount, including zero and negative ones;
- no order is confirmed on a failure.

## Model

| member | source | states |
|---|---|---|
| `Primitives.Wrap32` | Runtime/Core/PurchaseManager.cs:105-106 | C#'s unchecked `int` addition: the result lies in `int` range, agrees with the exact sum modulo 2^32, and equals it when the sum is in range |
| `Catalog.DefaultProductJson` | Runtime/ProductJson.cs:9-15 | a default record has Id "new_id", Name "New Product", Description "Description", Currency "USD" and Amount 1 |
| `Catalog.Wrap` | Runtime/Core/RuntimeProduct.cs:8-17 | `new RuntimeProduct(def)`, used by every load: a runtime product's Id, Name, Description, Currency, Amount and Type are its definition's; the datatype makes them immutable after construction |
| `Catalog.WrapLegacy` | Runtime/Core/BasePurchaseManager.cs:58-72 | the legacy `new RuntimeProduct(def)`, used by the older load: its Id, Name, Description and Currency are its definition's |
| `Catalog.Find` | Runtime/Core/PurchaseManager.cs:29 | lookup yields null exactly when no product has the id; otherwise it yields the catalog product at the lowest index carrying that id |
| `Catalog.FindFirst` | Runtime/Platforms/GooglePlayPurchaseManager.cs:87 | lookup yields the first product with the id, as `Find`/`FirstOrDefault` do |
| `Catalog.Project` | Runtime/Core/PurchaseManager.cs:68-72 | a load builds exactly one product per record, in record order |
| `Catalog.ProjectRoundTrip` | Runtime/Core/PurchaseManager.cs:68-72 | the definitions behind a loaded catalog are the loaded records, in order, with nothing lost |
| `Catalog.ProjectLegacy` | Runtime/Core/BasePurchaseManager.cs:48-52 | the older manager's load builds one legacy product per record, in record order |
| `StoreAdapter.StoreType` | Runtime/Core/UniversalPurchaseManager.cs:72-74 | a product is registered as a store non-consumable if and only if it is a NonConsumable; every other kind becomes a consumable |
| `StoreAdapter.StoreDefinitions` | Runtime/Core/UniversalPurchaseManager.cs:69-78 | one store definition per catalog product, in catalog order, carrying the product's id and mapped kind |
| `StoreAdapter.BuildProductDefinitions` | Runtime/Core/UniversalPurchaseManager.cs:69-78 | the definition-building loop produces exactly `StoreDefinitions` of the catalog |
| `Core.Grant` | Runtime/Core/PurchaseManager.cs:77-86 | saving a non-consumable: the id is owned afterwards, nothing else is added, nothing is removed or reordered, an owned id leaves the list unchanged (so a second save is a no-op), and a duplicate-free list stays duplicate-free |
| `Core.GrantAll` | Runtime/Core/PurchaseManager.cs:77-86 | after any sequence of saves the owned list holds exactly the earlier ids and the saved ones, keeps its prefix, and stays duplicate-free |
| `Core.GrantAllOwned` | Runtime/Core/PurchaseManager.cs:80 | saving ids that are all owned already changes nothing |
| `Core.GrantAllIdempotent` | Runtime/Core/PurchaseManager.cs:77-86 | repeating a sequence of saves changes nothing |
| `Core.BalanceOf` | Runtime/Core/PurchaseManager.cs:105 | `PlayerPrefs.GetInt(id, 0)`: a key never written reads 0, otherwise the stored counter |
| `Core.Credit` | Runtime/Core/PurchaseManager.cs:103-108 | `AddConsumable(id, n)` sets the counter to old counter + n, wrapped to `int`, with no check on n; every other key is untouched |
| `Core.CreditsAccumulate` | Runtime/Core/PurchaseManager.cs:103-108 | two credits to one counter add up while the sum stays within `int` |
| `Core.Admits` | Runtime/Core/PurchaseManager.cs:29-40 | a purchase passes the guard if and only if some catalog product has the id and the first such product is not an owned NonConsumable |
| `Core.Rejection` | Runtime/Core/PurchaseManager.cs:27-43 | a refused purchase raises a failure: with no product and "Product not found" exactly when no catalog product has the id; otherwise with the owned NonConsumable catalog product and "Already purchased" |
| `Core.UnknownIdRejected` | Runtime/Core/PurchaseManager.cs:29-34 | an id missing from the catalog never reaches the platform hook and raises `Failed(null, "Product not found")` |
| `Core.ConsumableAdmitted` | Runtime/Core/PurchaseManager.cs:36-42 | a catalog Consumable always reaches the platform hook, whatever is owned or credited |
| `Core.SavedNonConsumableRejected` | Runtime/Core/PurchaseManager.cs:36-40 | once a catalog NonConsumable has been saved, buying it again raises `Failed(product, "Already purchased")` and never reaches the hook |
| `Core.OwnedAfterDelivery` | Runtime/Platforms/GooglePlayPurchaseManager.cs:96-100 | a delivered product's id is owned afterwards exactly when it was owned or the product is a NonConsumable; nothing is removed, other kinds leave the list alone, and duplicate-freedom is kept |
| `Core.BalancesAfterDelivery` | Runtime/Platforms/GooglePlayPurchaseManager.cs:101-105 | a delivered Consumable adds its key and one unit to its counter (when in range); other counters are untouched and other kinds change nothing |
| `Core.DeliveryCreditsOneUnit` | Runtime/Platforms/GooglePlayPurchaseManager.cs:101-105 | a delivered consumable is credited exactly one unit, and its `Amount` has no effect on the counters |
| `Core.PurchaseManager.constructor` | Runtime/Core/PurchaseManager.cs:10-16 | a manager starts with an empty catalog, no notifications and no ledger views seen by subscribers, over the preference store a previous run left |
| `Core.PurchaseManager.Initialize` | Runtime/Core/PurchaseManager.cs:18-21 | initialising loads the catalog |
| `Core.PurchaseManager.GetProducts` | Runtime/Core/PurchaseManager.cs:23 | returns the catalog in list order, as a copy; after a load that is `Project` of the records |
| `Core.PurchaseManager.LoadProductsFromJSON` | Runtime/Core/PurchaseManager.cs:59-72 | an absent catalog file leaves the catalog unchanged; otherwise the catalog, and so `GetProducts`, becomes one product per record in file order |
| `Core.PurchaseManager.Purchase` | Runtime/Core/PurchaseManager.cs:27-43 | the product goes to the platform hook if and only if the guard admits it; it is then the catalog's product for the id and nothing is raised; otherwise exactly the rejection failure is raised |
| `Core.PurchaseManager.TriggerPurchaseSuccess` | Runtime/Core/PurchaseManager.cs:48 | raises exactly one success carrying the given product; its subscribers see the owned list and counters as they stand at that moment |
| `Core.PurchaseManager.TriggerPurchaseFailed` | Runtime/Core/PurchaseManager.cs:49 | raises exactly one failure carrying the given product (possibly null) and reason |
| `Core.PurchaseManager.SaveNonConsumable` | Runtime/Core/PurchaseManager.cs:77-86 | the owned list becomes `Grant` of the old one, and the id then reads as purchased |
| `Core.PurchaseManager.IsAlreadyPurchased` | Runtime/Core/PurchaseManager.cs:96 | true if and only if the id occurs in the owned list |
| `Core.PurchaseManager.IsProductPurchased` | Runtime/Core/PurchaseManager.cs:98-101 | true if and only if the id is in the owned list |
| `Core.PurchaseManager.AddConsumable` | Runtime/Core/PurchaseManager.cs:103-108 | the counters become `Credit` of the old ones, so the balance grows by exactly the amount while in `int` range; the owned list is untouched |
| `Core.PurchaseManager.GetConsumableAmount` | Runtime/Core/PurchaseManager.cs:110-113 | 0 for an id never credited, otherwise the stored counter |
| `GooglePlay.GooglePlayPurchaseManager.constructor` | Runtime/Platforms/GooglePlayPurchaseManager.cs:10-11 | a new manager has no controller and has asked the store for nothing |
| `GooglePlay.GooglePlayPurchaseManager.Initialize` | Runtime/Platforms/GooglePlayPurchaseManager.cs:13-48 | loads the catalog, then registers one definition per catalog product with the store, only when the services start |
| `GooglePlay.GooglePlayPurchaseManager.ProcessPlatformPurchase` | Runtime/Platforms/GooglePlayPurchaseManager.cs:50-63 | without a controller it raises `Failed(product, "IAP not initialized")` and initiates nothing; with one it initiates exactly `product.Id` and raises nothing |
| `GooglePlay.GooglePlayPurchaseManager.Purchase` | Runtime/Core/PurchaseManager.cs:27-43 | end to end: a refused purchase only raises its failure; an admitted one initiates exactly the id when initialised and otherwise raises "IAP not initialized" |
| `GooglePlay.GooglePlayPurchaseManager.OnInitialized` | Runtime/Platforms/GooglePlayPurchaseManager.cs:65-70 | after it, the controller is available |
| `GooglePlay.GooglePlayPurchaseManager.ProcessPurchase` | Runtime/Platforms/GooglePlayPurchaseManager.cs:82-111 | answers Complete on every path; an unknown id changes nothing and raises nothing; a known NonConsumable is saved, a known Consumable is credited one unit, and exactly one success is raised, whose subscribers see the updated ledger (a delivered NonConsumable already reads as owned) |
| `GooglePlay.GooglePlayPurchaseManager.OnPurchaseFailed` | Runtime/Platforms/GooglePlayPurchaseManager.cs:113-119 | raises exactly one failure with the looked-up product (possibly null) and the reason; the ledger is untouched |
| `TestStore.TestPurchaseManager.constructor` | Runtime/Platforms/TestPurchaseManager.cs:10-11 | a new manager has no controller and has asked the store for nothing |
| `TestStore.TestPurchaseManager.Initialize` | Runtime/Platforms/TestPurchaseManager.cs:13-52 | loads the catalog, then registers one definition per catalog product with the store, only when the services start |
| `TestStore.TestPurchaseManager.ProcessPlatformPurchase` | Runtime/Platforms/TestPurchaseManager.cs:54-64 | without a controller it raises `Failed(product, "IAP not initialized")` and initiates nothing; with one it initiates exactly `product.Id` |
| `TestStore.TestPurchaseManager.Purchase` | Runtime/Core/PurchaseManager.cs:27-43 | end to end: a refused purchase only raises its failure; an admitted one initiates exactly the id when initialised and otherwise raises "IAP not initialized" |
| `TestStore.TestPurchaseManager.OnInitialized` | Runtime/Platforms/TestPurchaseManager.cs:66-71 | after it, the controller is available |
| `TestStore.TestPurchaseManager.ProcessPurchase` | Runtime/Platforms/TestPurchaseManager.cs:83-105 | answers Complete on every path; an unknown id changes nothing; a known NonConsumable is saved idempotently, a known Consumable is credited one unit, and one success is raised, whose subscribers see the updated ledger (a delivered NonConsumable already reads as owned) |
| `TestStore.TestPurchaseManager.OnPurchaseFailed` | Runtime/Platforms/TestPurchaseManager.cs:107-111 | raises one failure with the looked-up product and the reason, and changes nothing else |
| `StoreAdapter.ItemId` | Runtime/Core/UniversalPurchaseManager.cs:152-153 | `FirstOrDefault()?.Product?.definition.id`: an id exactly when the cart's first item exists and has a product, and then that product's id |
| `Universal.LookupItem` | Runtime/Core/UniversalPurchaseManager.cs:152-163 | an order with no item id (no first item, or one whose product is null) names no product; an order's id names a product if and only if some catalog product carries it, and then the first such product |
| `Universal.IsKnownNonConsumable` | Runtime/Core/UniversalPurchaseManager.cs:131-134 | an id is restored exactly when some catalog product carries it and the first such product is a NonConsumable |
| `Universal.RestoredIds` | Runtime/Core/UniversalPurchaseManager.cs:126-136 | the ids a restore saves are exactly the confirmed orders' item ids that name a catalog NonConsumable |
| `Universal.RestoreReach` | Runtime/Core/UniversalPurchaseManager.cs:126-128 | a restore gets through the orders before the first one whose first item has a null product, where reading the id throws, or through all of them |
| `Universal.RestoreOfOwnedChangesNothing` | Runtime/Core/UniversalPurchaseManager.cs:126-136 | restoring orders whose non-consumables are already owned leaves the ledger unchanged |
| `Universal.RestoreIdempotent` | Runtime/Core/UniversalPurchaseManager.cs:126-136 | restoring the same orders twice ends where restoring them once did |
| `Universal.UniversalPurchaseManager.constructor` | Runtime/Core/UniversalPurchaseManager.cs:15 | a new manager has no store controller and has asked the store for nothing |
| `Universal.UniversalPurchaseManager.Initialize` | Runtime/Core/UniversalPurchaseManager.cs:20-82 | loads the catalog; once the services start, the controller is available even if `Connect` fails, and the catalog's definitions are fetched only after a successful connection |
| `Universal.UniversalPurchaseManager.ProcessPlatformPurchase` | Runtime/Core/UniversalPurchaseManager.cs:240-260 | without a controller it raises `Failed(product, "IAP not initialized")` and requests nothing; with one it issues exactly one `PurchaseProduct(product.Id)` |
| `Universal.UniversalPurchaseManager.Purchase` | Runtime/Core/PurchaseManager.cs:27-43 | end to end: a refused purchase only raises its failure; an admitted one requests exactly the id when the controller exists and otherwise raises "IAP not initialized" |
| `Universal.UniversalPurchaseManager.OnPurchasePending` | Runtime/Core/UniversalPurchaseManager.cs:150-192 | every path confirms the order exactly once; a null or unknown id changes nothing else; a known product is saved if NonConsumable, consumable counters never change, and exactly one success is raised, whose subscribers already see the save |
| `Universal.UniversalPurchaseManager.OnPurchasesFetched` | Runtime/Core/UniversalPurchaseManager.cs:122-137 | restore throws if and only if some order's first item has a null product; the owned list becomes the saves of `RestoredIds` of the orders before the first such order (all of them when there is none), the earlier saves staying in place; nothing is raised |
| `Universal.UniversalPurchaseManager.OnPurchasesFailed` | Runtime/Core/UniversalPurchaseManager.cs:227-235 | raises one failure with the product the order names (null for none) and the reason |
| `AppStore.NotFoundReason` | Runtime/Platforms/AppStorePurchaseManager.cs:23 | the failure reason is "Product ", the id, then " not found", and the id can be read back from it |
| `AppStore.BasePurchaseManager.constructor` | Runtime/Core/BasePurchaseManager.cs:10 | a manager starts with an empty catalog and no notifications |
| `AppStore.BasePurchaseManager.Initialize` | Runtime/Core/BasePurchaseManager.cs:16-19 | initialising loads the catalog |
| `AppStore.BasePurchaseManager.GetProducts` | Runtime/Core/BasePurchaseManager.cs:21 | returns the catalog in list order, as a copy; after a load that is `ProjectLegacy` of the records |
| `AppStore.BasePurchaseManager.LoadProductsFromJSON` | Runtime/Core/BasePurchaseManager.cs:39-52 | an absent file leaves the catalog unchanged; otherwise the catalog, and so `GetProducts`, becomes one legacy product per record in file order |
| `AppStore.BasePurchaseManager.TriggerPurchaseSuccess` | Runtime/Core/BasePurchaseManager.cs:28 | raises exactly one success with the given product |
| `AppStore.BasePurchaseManager.TriggerPurchaseFailed` | Runtime/Core/BasePurchaseManager.cs:29 | raises exactly one failure with the given product and reason |
| `AppStore.AppStorePurchaseManager.constructor` | Runtime/Platforms/AppStorePurchaseManager.cs:5 | wraps the inherited manager state |
| `AppStore.AppStorePurchaseManager.Purchase` | Runtime/Platforms/AppStorePurchaseManager.cs:13-25 | raises exactly one notification: success with the catalog product for a known id, `Failed(null, "Product <id> not found")` otherwise; there is no ownership check and the catalog is untouched |

## Left out

- Unity services and store SDK calls are left out, along with their asynchronous initialisation
  (`UnityServices.InitializeAsync`, `Connect`, `UnityPurchasing.Initialize`, `FetchProducts`, `FetchPurchases`).
  Their outcomes are parameters (`servicesUp`, `connects`) or the `OnInitialized` callback. The calls themselves
  are recorded in logs.
- Callbacks that only log are left out: `OnInitializeFailed`, `OnProductsFetchFailed`, `OnPurchasesFetchFailed`,
  `OnPurchaseConfirmed`, `OnPurchaseDeferred` and `OnStoreDisconnected`. So is `OnProductsFetched`, whose only
  effect is an SDK `FetchPurchases` call.
- `RestorePurchases` is left out: it is a platform check plus an SDK call whose callback only logs.
- The editor's fake-store configuration in the test manager's `Initialize` is left out.
- File I/O and JSON parsing are left out. A load takes the already-parsed records, or None when `Products.json`
  does not exist. Malformed JSON and a `null` document are not modelled; in the code these raise exceptions, and a
  `null` document does so after the catalog has been cleared. A `null` record is not modelled either: loading it
  succeeds, and the exception comes at the first later `p.Id` access, such as the lookup in `Purchase`, or in the
  definition-building loop of a store-backed manager's initialisation. The Google Play and test managers swallow
  it there and register nothing. The universal manager swallows it too, after the store controller has been
  obtained, so the controller exists but `FetchProducts` is never called.
- The preference store is modelled in memory, as two separate fields. `PlayerPrefs.Save` durability and the JSON
  encoding of the owned list are not modelled. In the code, counters and the owned list share one key namespace.
  The model assumes no product id equals `NonConsumablePurchases`. An owned list written by something other than
  `SaveNonConsumable` may hold duplicates, so freedom from duplicates is stated as preserved, not assumed.
- `Price` (a `double` cast to `decimal`) is not modelled. It is floating point and no rule depends on it.
- Analytics under `PLAYBOX_SDK` and all `Debug.Log*` calls are left out: they do not affect state.
- Exceptions thrown by event subscribers are not modelled. In the code, such an exception would skip the
  `ConfirmPurchase` that follows a success in `OnPurchasePending`.
- Universal.UniversalPurchaseManager.OnPurchasePending: the order of the success notification and the
  confirmation is not stated, because events and confirmations are kept in separate logs.
- The declaration of `ProductType` is not part of this model. `Other` stands for any member besides `Consumable`
  and `NonConsumable`. The default `Type` of a `ProductJson` is taken to be `Consumable`, the first member,
  since C# defaults an enum field to its first member.
- Catalog product ids are never null in this model. An order whose item id is null names no product.
- `OnPurchaseConfirmed` reads the id without a null check, like the restore loop, but it only logs, so the
  exception it can throw is not modelled.
- Product lookup inside `Purchase` uses `List.Find`, and the callbacks use `FirstOrDefault`. Both return the
  first match, so both are modelled by `Catalog.Find`.
- Editor tooling, the UI button binding, the service locator / dependency resolver, the Playbox detector, and the
  behaviour-free interfaces and `Product` class are not part of this model.

=== FILE: app_store.dfy ===
/**
 * The older manager base (catalog and notifications only, no ledger) and the App Store manager
 * built on it, whose purchase succeeds at once for any catalog id.
 */
module AppStore {
  import opened Primitives
  import opened Catalog

  type LegacyEvent = Event<LegacyRuntimeProduct>

  /** The reason raised for an id the catalog does not list; the id can be read back from it. */
  function NotFoundReason(id: string): (reason: string)
    ensures |reason| == |id| + 18
    ensures reason[..8] == "Product " && reason[|reason| - 10..] == " not found"
    ensures reason[8..|reason| - 10] == id
  {
    "Product " + id + " not found"
  }

  class BasePurchaseManager {
    var products: seq<LegacyRuntimeProduct>
    var events: seq<LegacyEvent>

    constructor ()
      ensures products == [] && events == []
    {
      products := [];
      events := [];
    }

    /** Loads the catalog. `source` is the parsed catalog file, None when the file is absent. */
    method Initialize(source: Option<seq<ProductJson>>)
      modifies this`products
      ensures products == if source.None? then old(products) else ProjectLegacy(source.value)
    {
      LoadProductsFromJSON(source);
    }

    /** A copy of the catalog, in catalog order; the caller cannot change the manager's list through it. */
    function GetProducts(): (r: seq<LegacyRuntimeProduct>)
      reads this
      ensures |r| == |products| && forall i :: 0 <= i < |r| ==> r[i] == products[i]
    {
      products
    }

    /** An absent file leaves the catalog alone; otherwise it is cleared and refilled record by record. */
    method LoadProductsFromJSON(source: Option<seq<ProductJson>>)
      modifies this`products
      ensures source.None? ==> products == old(products)
      ensures source.Some? ==> products == ProjectLegacy(source.value) && GetProducts() == products
    {
      if source.None? {
        return;
      }
      var defs := source.value;
      products := [];
      for i := 0 to |defs|
        invariant |products| == i
        invariant forall k :: 0 <= k < i ==> products[k] == WrapLegacy(defs[k])
      {
        products := products + [WrapLegacy(defs[i])];
      }
    }

    method TriggerPurchaseSuccess(product: LegacyRuntimeProduct)
      modifies this`events
      ensures events == old(events) + [Success(product)]
    {
      events := events + [Success(product)];
    }

    method TriggerPurchaseFailed(product: Option<LegacyRuntimeProduct>, reason: string)
      modifies this`events
      ensures events == old(events) + [Failed(product, reason)]
    {
      events := events + [Failed(product, reason)];
    }
  }

  class AppStorePurchaseManager {
    /** The inherited manager state. */
    const base: BasePurchaseManager

    constructor (base: BasePurchaseManager)
      ensures this.base == base
    {
      this.base := base;
    }

    /**
     * A catalog id succeeds at once; any other id fails with a product-less failure. There is
     * no ownership check, the catalog is untouched, and exactly one notification is raised.
     */
    method Purchase(id: string)
      modifies base`events
      ensures |base.events| == |old(base.events)| + 1 && base.events[..|base.events| - 1] == old(base.events)
      ensures Find(base.products, LegacyKeyOf, id).Some? ==>
        base.events[|base.events| - 1] == Success(Find(base.products, LegacyKeyOf, id).value)
      ensures Find(base.products, LegacyKeyOf, id).None? ==>
        base.events[|base.events| - 1] == Failed(None, NotFoundReason(id))
    {
      var product := Find(base.products, LegacyKeyOf, id);
      if product.Some? {
        base.TriggerPurchaseSuccess(product.value);
      } else {
        base.TriggerPurchaseFailed(None, NotFoundReason(id));
      }
    }
  }
}

=== FILE: catalog.dfy ===
/**
 * The product catalog: the `ProductJson` record read from the catalog file, the read-only
 * `RuntimeProduct` views built from it, lookup by id, and the catalog produced by a load.
 */
module Catalog {
  import opened Primitives

  /**
   * The SDK's product kinds. The enum's declaration is not part of this model; the code
   * distinguishes `Consumable` and `NonConsumable` and treats any further member alike,
   * which `Other` stands for.
   */
  datatype ProductType = Consumable | NonConsumable | Other

  /** One catalog record as deserialised from the catalog file. Price is not modelled. */
  datatype ProductJson = ProductJson(
    Id: string := "new_id",
    Name: string := "New Product",
    Description: string := "Description",
    Currency: string := "USD",
    Amount: Int32 := 1,
    Type: ProductType := Consumable)

  /** A record built with every field initialiser. */
  function DefaultProductJson(): (r: ProductJson)
    ensures r.Id == "new_id"
    ensures r.Name == "New Product" && r.Description == "Description"
    ensures r.Currency == "USD"
    ensures r.Amount == 1
  {
    ProductJson()
  }

  /** The runtime product: a read-only view of the definition it wraps. */
  datatype RuntimeProduct = RuntimeProduct(def: ProductJson) {
    const Id: string := def.Id
    const Name: string := def.Name
    const Description: string := def.Description
    const Currency: string := def.Currency
    const Amount: Int32 := def.Amount
    const Type: ProductType := def.Type
  }

  /** The older runtime product, which exposes only the textual fields of its definition. */
  datatype LegacyRuntimeProduct = LegacyRuntimeProduct(def: ProductJson) {
    const Id: string := def.Id
    const Name: string := def.Name
    const Description: string := def.Description
    const Currency: string := def.Currency
  }

  /** `new RuntimeProduct(def)`: every observable field of the product is the wrapped definition's. */
  function Wrap(d: ProductJson): (p: RuntimeProduct)
    ensures p.Id == d.Id && p.Name == d.Name && p.Description == d.Description
    ensures p.Currency == d.Currency
    ensures p.Amount == d.Amount
    ensures p.Type == d.Type
  {
    RuntimeProduct(d)
  }

  /** The legacy `new RuntimeProduct(def)`: every observable field is the wrapped definition's. */
  function WrapLegacy(d: ProductJson): (p: LegacyRuntimeProduct)
    ensures p.Id == d.Id && p.Name == d.Name && p.Description == d.Description
    ensures p.Currency == d.Currency
  {
    LegacyRuntimeProduct(d)
  }

  /** The notifications a manager raises: a success, or a failure with a product that may be null. */
  datatype Event<P> = Success(product: P) | Failed(subject: Option<P>, reason: string)

  function KeyOf(p: RuntimeProduct): string { p.Id }

  function LegacyKeyOf(p: LegacyRuntimeProduct): string { p.Id }

  /** `k` is the lowest index whose entry carries `id`. */
  predicate FirstMatchAt<P>(ps: seq<P>, key: P -> string, id: string, k: int) {
    0 <= k < |ps| && key(ps[k]) == id && forall j :: 0 <= j < k ==> key(ps[j]) != id
  }

  /**
   * The first product whose id is `id`, or null: `List.Find` and `FirstOrDefault` with the
   * predicate `p => p.Id == id`.
   */
  function Find<P(==)>(ps: seq<P>, key: P -> string, id: string): (r: Option<P>)
    ensures r.None? <==> forall i :: 0 <= i < |ps| ==> key(ps[i]) != id
    ensures r.Some? ==> r.value in ps && key(r.value) == id
    ensures r.Some? ==> exists k :: FirstMatchAt(ps, key, id, k) && ps[k] == r.value
  {
    if ps == [] then None
    else if key(ps[0]) == id then
      assert FirstMatchAt(ps, key, id, 0);
      Some(ps[0])
    else
      var r := Find(ps[1..], key, id);
      assert forall i :: 1 <= i < |ps| ==> ps[i] == ps[1..][i - 1];
      if r.Some? then
        var k :| FirstMatchAt(ps[1..], key, id, k) && ps[1..][k] == r.value;
        assert FirstMatchAt(ps, key, id, k + 1);
        r
      else r
  }

  /** `Find` returns the FIRST match: the entry at the lowest index carrying the id. */
  lemma {:induction false} FindFirst<P>(ps: seq<P>, key: P -> string, id: string, k: nat)
    requires k < |ps| && key(ps[k]) == id
    requires forall j :: 0 <= j < k ==> key(ps[j]) != id
    ensures Find(ps, key, id) == Some(ps[k])
  {
    if k > 0 {
      assert key(ps[0]) != id;
      assert ps[1..][k - 1] == ps[k];
      FindFirst(ps[1..], key, id, k - 1);
    }
  }

  /** The catalog a load builds: one runtime product per record, in the records' order. */
  function Project(defs: seq<ProductJson>): (ps: seq<RuntimeProduct>)
    ensures |ps| == |defs|
    ensures forall i :: 0 <= i < |defs| ==> ps[i].def == defs[i]
  {
    seq(|defs|, i requires 0 <= i < |defs| => Wrap(defs[i]))
  }

  /** The definitions behind a catalog. */
  function Definitions(ps: seq<RuntimeProduct>): (defs: seq<ProductJson>)
    ensures |defs| == |ps|
    ensures forall i :: 0 <= i < |ps| ==> defs[i] == ps[i].def
  {
    if ps == [] then [] else [ps[0].def] + Definitions(ps[1..])
  }

  /** Loading loses nothing: the definitions behind a loaded catalog are the records, in order. */
  lemma {:induction false} ProjectRoundTrip(defs: seq<ProductJson>)
    ensures Definitions(Project(defs)) == defs
  {
    if defs != [] {
      assert Project(defs)[1..] == Project(defs[1..]);
      ProjectRoundTrip(defs[1..]);
    }
  }

  /** The catalog the older manager's load builds: one legacy product per record, in order. */
  function ProjectLegacy(defs: seq<ProductJson>): (ps: seq<LegacyRuntimeProduct>)
    ensures |ps| == |defs|
    ensures forall i :: 0 <= i < |defs| ==> ps[i].def == defs[i]
  {
    seq(|defs|, i requires 0 <= i < |defs| => WrapLegacy(defs[i]))
  }
}

=== FILE: google_play.dfy ===
/**
 * The Google Play manager: registers the catalog with the store, forwards guarded purchases to
 * the store controller once it is available, and applies the store's purchase callbacks to the
 * ledger.
 */
module GooglePlay {
  import opened Primitives
  import opened Catalog
  import opened StoreAdapter
  import opened Core

  class GooglePlayPurchaseManager {
    /** The inherited manager state. */
    const core: PurchaseManager
    /** `_controller != null`: the store has called `OnInitialized`. */
    var ready: bool
    /** The definition lists passed to `UnityPurchasing.Initialize`. */
    var registrations: seq<seq<ProductDefinition>>
    /** The ids passed to `_controller.InitiatePurchase`. */
    var initiated: seq<string>

    constructor (core: PurchaseManager)
      ensures this.core == core
      ensures !ready && registrations == [] && initiated == []
    {
      this.core := core;
      ready := false;
      registrations := [];
      initiated := [];
    }

    /**
     * Loads the catalog, then registers it with the store. `servicesUp` says whether the
     * services initialisation awaited first succeeded; when it fails nothing is registered.
     */
    method Initialize(source: Option<seq<ProductJson>>, servicesUp: bool)
      modifies core`products, this`registrations
      ensures core.products == if source.None? then old(core.products) else Project(source.value)
      ensures registrations == old(registrations) + if servicesUp then [StoreDefinitions(core.products)] else []
    {
      core.Initialize(source);
      if servicesUp {
        var defs := BuildProductDefinitions(core.products);
        registrations := registrations + [defs];
      }
    }

    /** Refuses while the store is not initialised; otherwise asks the store for the product. */
    method ProcessPlatformPurchase(product: RuntimeProduct)
      modifies core`events, this`initiated
      ensures !ready ==> core.events == old(core.events) + [Failed(Some(product), NotInitialized)]
      ensures !ready ==> initiated == old(initiated)
      ensures ready ==> initiated == old(initiated) + [product.Id] && core.events == old(core.events)
    {
      if !ready {
        core.TriggerPurchaseFailed(Some(product), NotInitialized);
        return;
      }
      initiated := initiated + [product.Id];
    }

    /** The inherited guard followed by this manager's hook. */
    method Purchase(id: string)
      modifies core`events, this`initiated
      ensures !Admits(core.products, core.owned, id) ==>
        initiated == old(initiated) &&
        core.events == old(core.events) + [Rejection(core.products, core.owned, id)]
      ensures Admits(core.products, core.owned, id) && ready ==>
        initiated == old(initiated) + [id] && core.events == old(core.events)
      ensures Admits(core.products, core.owned, id) && !ready ==>
        initiated == old(initiated) &&
        core.events == old(core.events) + [Failed(Find(core.products, KeyOf, id), NotInitialized)]
    {
      var forward := core.Purchase(id);
      if forward.Some? {
        ProcessPlatformPurchase(forward.value);
      }
    }

    method OnInitialized()
      modifies this`ready
      ensures ready
    {
      ready := true;
    }

    /**
     * The store delivers a purchase of `id`. An unknown id is acknowledged and ignored; a
     * known product is saved (non-consumable) or credited one unit (consumable) before the
     * success is raised, so its subscribers already see the updated ledger. Every path answers
     * Complete.
     */
    method ProcessPurchase(id: string) returns (result: PurchaseProcessingResult)
      modifies core`owned, core`balances, core`events, core`notified
      ensures result == Complete
      ensures Find(core.products, KeyOf, id).None? ==>
        core.owned == old(core.owned) && core.balances == old(core.balances) &&
        core.events == old(core.events) && core.notified == old(core.notified)
      ensures Find(core.products, KeyOf, id).Some? ==>
        var p := Find(core.products, KeyOf, id).value;
        core.owned == OwnedAfterDelivery(old(core.owned), p) &&
        core.balances == BalancesAfterDelivery(old(core.balances), p) &&
        core.events == old(core.events) + [Success(p)] &&
        core.notified == old(core.notified) + [LedgerView(core.owned, core.balances)]
      ensures Find(core.products, KeyOf, id).Some? && Find(core.products, KeyOf, id).value.Type == NonConsumable ==>
        id in core.notified[|core.notified| - 1].owned
    {
      var product := Find(core.products, KeyOf, id);
      if product.None? {
        return Complete;
      }
      var p := product.value;
      if p.Type == NonConsumable {
        core.SaveNonConsumable(p.Id);
      } else if p.Type == Consumable {
        core.AddConsumable(p.Id, 1);
      }
      core.TriggerPurchaseSuccess(p);
      return Complete;
    }

    /** The store reports a failed purchase of `id`: the failure is raised, the ledger untouched. */
    method OnPurchaseFailed(id: string, reason: string)
      modifies core`events
      ensures core.events == old(core.events) + [Failed(Find(core.products, KeyOf, id), reason)]
    {
      var product := Find(core.products, KeyOf, id);
      core.TriggerPurchaseFailed(product, reason);
    }
  }
}

=== FILE: primitives.dfy ===
/** Small value types shared by every module: a nullable reference and C#'s 32-bit `int`. */
module Primitives {

  /** A C# reference that may be `null`. */
  datatype Option<+T> = None | Some(value: T)

  const TwoTo32: int := 0x1_0000_0000

  /** `x` is a value of C#'s `int`. */
  predicate InInt32Range(x: int) {
    -0x8000_0000 <= x < 0x8000_0000
  }

  /** The values of C#'s `int`. */
  type Int32 = x: int | InInt32Range(x)

  /** The result of C#'s unchecked `int` arithmetic: `x` reduced to 32 bits, two's complement. */
  function Wrap32(x: int): (r: Int32)
    ensures (r - x) % TwoTo32 == 0
    ensures InInt32Range(x) ==> r == x
  {
    var y := (x + 0x8000_0000) % TwoTo32;
    assert y - (x + 0x8000_0000) == -TwoTo32 * ((x + 0x8000_0000) / TwoTo32);
    y - 0x8000_0000
  }
}

=== FILE: purchase_manager.dfy ===
/**
 * The abstract purchase manager: the catalog, the entitlement ledger kept in the player
 * preference store, the three-step purchase guard, and the success/failure notifications.
 */
module Core {
  import opened Primitives
  import opened Catalog

  const ProductNotFound: string := "Product not found"
  const AlreadyPurchased: string := "Already purchased"
  /** The failure reason every platform hook gives while its store is not initialised. */
  const NotInitialized: string := "IAP not initialized"

  type PurchaseEvent = Event<RuntimeProduct>

  predicate NoDuplicates(s: seq<string>) {
    forall i, j :: 0 <= i < j < |s| ==> s[i] != s[j]
  }

  // ---------------------------------------------------------------------------------------
  // The ledger as values

  /** The owned list after `SaveNonConsumable(id)`: `id` is appended unless already present. */
  function Grant(owned: seq<string>, id: string): (r: seq<string>)
    ensures id in r
    ensures forall x :: x in r <==> x in owned || x == id
    ensures owned <= r && |r| <= |owned| + 1
    ensures id in owned ==> r == owned
    ensures NoDuplicates(owned) ==> NoDuplicates(r)
  {
    if id in owned then owned else owned + [id]
  }

  /** The owned list after `SaveNonConsumable` of each id of `ids` in turn. */
  function GrantAll(owned: seq<string>, ids: seq<string>): (r: seq<string>)
    ensures forall x :: x in r <==> x in owned || x in ids
    ensures owned <= r
    ensures NoDuplicates(owned) ==> NoDuplicates(r)
  {
    if ids == [] then owned
    else
      var n := |ids| - 1;
      assert forall x :: x in ids <==> x in ids[..n] || x == ids[n];
      Grant(GrantAll(owned, ids[..n]), ids[n])
  }

  /** Saving ids that are all owned already changes nothing. */
  lemma {:induction false} GrantAllOwned(owned: seq<string>, ids: seq<string>)
    requires forall x :: x in ids ==> x in owned
    ensures GrantAll(owned, ids) == owned
  {
    if ids != [] {
      var n := |ids| - 1;
      assert forall x :: x in ids[..n] ==> x in ids;
      GrantAllOwned(owned, ids[..n]);
    }
  }

  /** Saving the same ids a second time changes nothing. */
  lemma GrantAllIdempotent(owned: seq<string>, ids: seq<string>)
    ensures GrantAll(GrantAll(owned, ids), ids) == GrantAll(owned, ids)
  {
    GrantAllOwned(GrantAll(owned, ids), ids);
  }

  /** The stored counter for `id`, 0 when the key was never written. */
  function BalanceOf(balances: map<string, Int32>, id: string): (r: Int32)
    ensures id !in balances ==> r == 0
    ensures id in balances ==> r == balances[id]
  {
    if id in balances then balances[id] else 0
  }

  /** The counters after `AddConsumable(id, amount)`: C#'s unchecked `current + amount`. */
  function Credit(balances: map<string, Int32>, id: string, amount: Int32): (r: map<string, Int32>)
    ensures r.Keys == balances.Keys + {id}
    ensures forall k :: k in balances && k != id ==> r[k] == balances[k]
    ensures (r[id] - (BalanceOf(balances, id) + amount)) % TwoTo32 == 0
    ensures InInt32Range(BalanceOf(balances, id) + amount) ==> r[id] == BalanceOf(balances, id) + amount
  {
    balances[id := Wrap32(BalanceOf(balances, id) + amount)]
  }

  /** Two credits to one counter add up, as long as the sum stays within `int`. */
  lemma CreditsAccumulate(balances: map<string, Int32>, id: string, m: Int32, n: Int32)
    requires InInt32Range(BalanceOf(balances, id) + m)
    requires InInt32Range(BalanceOf(balances, id) + m + n)
    ensures BalanceOf(Credit(Credit(balances, id, m), id, n), id) == BalanceOf(balances, id) + m + n
  {
  }

  // ---------------------------------------------------------------------------------------
  // The purchase guard as values

  /** `Purchase(id)` reaches the platform hook: the id is in the catalog, and its first entry is not an owned non-consumable. */
  predicate Admits(products: seq<RuntimeProduct>, owned: seq<string>, id: string)
    ensures Admits(products, owned, id) <==>
      exists k :: FirstMatchAt(products, KeyOf, id, k) && !(products[k].Type == NonConsumable && id in owned)
  {
    match Find(products, KeyOf, id)
    case None => false
    case Some(p) => !(p.Type == NonConsumable && id in owned)
  }

  /** The failure `Purchase(id)` raises when the guard stops it. */
  function Rejection(products: seq<RuntimeProduct>, owned: seq<string>, id: string): (e: PurchaseEvent)
    requires !Admits(products, owned, id)
    ensures e.Failed?
    ensures e.subject.None? <==> forall i :: 0 <= i < |products| ==> products[i].Id != id
    ensures e.subject.None? ==> e.reason == ProductNotFound
    ensures e.subject.Some? ==>
      && e.reason == AlreadyPurchased
      && e.subject.value in products && e.subject.value.Id == id
      && e.subject.value.Type == NonConsumable && id in owned
  {
    match Find(products, KeyOf, id)
    case None => Failed(None, ProductNotFound)
    case Some(p) => Failed(Some(p), AlreadyPurchased)
  }

  /** An id that is not in the catalog never reaches the hook, whatever is owned. */
  lemma UnknownIdRejected(products: seq<RuntimeProduct>, owned: seq<string>, id: string)
    requires forall i :: 0 <= i < |products| ==> products[i].Id != id
    ensures !Admits(products, owned, id)
    ensures Rejection(products, owned, id) == Failed(None, ProductNotFound)
  {
  }

  /** A consumable is never short-circuited: its purchase reaches the hook whatever is owned or credited. */
  lemma ConsumableAdmitted(products: seq<RuntimeProduct>, owned: seq<string>, id: string, k: nat)
    requires k < |products| && products[k].Id == id && products[k].Type == Consumable
    requires forall j :: 0 <= j < k ==> products[j].Id != id
    ensures Admits(products, owned, id)
  {
    FindFirst(products, KeyOf, id, k);
  }

  /** Once a catalog non-consumable is saved, buying it again is refused with "Already purchased". */
  lemma SavedNonConsumableRejected(products: seq<RuntimeProduct>, owned: seq<string>, k: nat)
    requires k < |products| && products[k].Type == NonConsumable
    requires forall j :: 0 <= j < k ==> products[j].Id != products[k].Id
    ensures !Admits(products, Grant(owned, products[k].Id), products[k].Id)
    ensures Rejection(products, Grant(owned, products[k].Id), products[k].Id)
         == Failed(Some(products[k]), AlreadyPurchased)
  {
    FindFirst(products, KeyOf, products[k].Id, k);
  }

  /** The owned list after a store-confirmed purchase of `p`: saved when it is a non-consumable. */
  function OwnedAfterDelivery(owned: seq<string>, p: RuntimeProduct): (r: seq<string>)
    ensures forall x :: x in r <==> x in owned || (x == p.Id && p.Type == NonConsumable)
    ensures owned <= r
    ensures p.Type != NonConsumable ==> r == owned
    ensures NoDuplicates(owned) ==> NoDuplicates(r)
  {
    if p.Type == NonConsumable then Grant(owned, p.Id) else owned
  }

  /** The counters after a store-confirmed purchase of `p`: one unit when it is a consumable. */
  function BalancesAfterDelivery(balances: map<string, Int32>, p: RuntimeProduct): (r: map<string, Int32>)
    ensures p.Type != Consumable ==> r == balances
    ensures p.Type == Consumable ==> r.Keys == balances.Keys + {p.Id}
    ensures forall k :: k in balances && k != p.Id ==> r[k] == balances[k]
    ensures p.Type == Consumable && InInt32Range(BalanceOf(balances, p.Id) + 1) ==>
      BalanceOf(r, p.Id) == BalanceOf(balances, p.Id) + 1
  {
    if p.Type == Consumable then Credit(balances, p.Id, 1) else balances
  }

  /** A delivered consumable is credited exactly one unit, whatever its `Amount` says. */
  lemma DeliveryCreditsOneUnit(balances: map<string, Int32>, p: RuntimeProduct, q: RuntimeProduct)
    requires p.Type == Consumable && q == RuntimeProduct(p.def.(Amount := q.Amount))
    requires InInt32Range(BalanceOf(balances, p.Id) + 1)
    ensures BalanceOf(BalancesAfterDelivery(balances, p), p.Id) == BalanceOf(balances, p.Id) + 1
    ensures BalancesAfterDelivery(balances, q) == BalancesAfterDelivery(balances, p)
  {
  }

  // ---------------------------------------------------------------------------------------
  // The manager

  /** The ledger as a success subscriber reads it back through `IsProductPurchased` and `GetConsumableAmount`. */
  datatype LedgerView = LedgerView(owned: seq<string>, balances: map<string, Int32>)

  /**
   * The state every store-backed manager shares. `owned` and `balances` stand for the player
   * preference store: `owned` is the list kept under the key `NonConsumablePurchases`, `balances` the
   * integer counters keyed by product id. `events` is the trace of notifications raised, and
   * `notified` holds, for each success raised, the ledger its subscribers see at that moment.
   */
  class PurchaseManager {
    var products: seq<RuntimeProduct>
    var owned: seq<string>
    var balances: map<string, Int32>
    var events: seq<PurchaseEvent>
    var notified: seq<LedgerView>

    /** A manager over the preference store as a previous run left it. */
    constructor (storedOwned: seq<string>, storedBalances: map<string, Int32>)
      ensures products == [] && events == [] && notified == []
      ensures owned == storedOwned && balances == storedBalances
    {
      products := [];
      owned := storedOwned;
      balances := storedBalances;
      events := [];
      notified := [];
    }

    /** Loads the catalog. `source` is the parsed catalog file, None when the file is absent. */
    method Initialize(source: Option<seq<ProductJson>>)
      modifies this`products
      ensures products == if source.None? then old(products) else Project(source.value)
    {
      LoadProductsFromJSON(source);
    }

    /** A copy of the catalog, in catalog order; the caller cannot change the manager's list through it. */
    function GetProducts(): (r: seq<RuntimeProduct>)
      reads this
      ensures |r| == |products| && forall i :: 0 <= i < |r| ==> r[i] == products[i]
    {
      products
    }

    /** An absent file leaves the catalog alone; otherwise it is cleared and refilled record by record. */
    method LoadProductsFromJSON(source: Option<seq<ProductJson>>)
      modifies this`products
      ensures source.None? ==> products == old(products)
      ensures source.Some? ==> products == Project(source.value) && GetProducts() == products
    {
      if source.None? {
        return;
      }
      var defs := source.value;
      products := [];
      for i := 0 to |defs|
        invariant |products| == i
        invariant forall k :: 0 <= k < i ==> products[k] == Wrap(defs[k])
      {
        products := products + [Wrap(defs[i])];
      }
    }

    /**
     * The guard in front of the platform hook. Returns the catalog product to hand to the
     * hook, or None after raising the failure that stopped the purchase.
     */
    method Purchase(id: string) returns (forward: Option<RuntimeProduct>)
      modifies this`events
      ensures forward.Some? <==> Admits(products, owned, id)
      ensures forward.Some? ==> forward == Find(products, KeyOf, id) && events == old(events)
      ensures forward.None? ==> events == old(events) + [Rejection(products, owned, id)]
    {
      var product := Find(products, KeyOf, id);
      if product.None? {
        TriggerPurchaseFailed(None, ProductNotFound);
        return None;
      }
      if product.value.Type == NonConsumable && IsAlreadyPurchased(id) {
        TriggerPurchaseFailed(product, AlreadyPurchased);
        return None;
      }
      forward := product;
    }

    /** Raises a success; its subscribers run now and see the ledger as it stands. */
    method TriggerPurchaseSuccess(product: RuntimeProduct)
      modifies this`events, this`notified
      ensures events == old(events) + [Success(product)]
      ensures notified == old(notified) + [LedgerView(owned, balances)]
    {
      events := events + [Success(product)];
      notified := notified + [LedgerView(owned, balances)];
    }

    method TriggerPurchaseFailed(product: Option<RuntimeProduct>, reason: string)
      modifies this`events
      ensures events == old(events) + [Failed(product, reason)]
    {
      events := events + [Failed(product, reason)];
    }

    /** Adds `id` to the owned list unless it is already there. */
    method SaveNonConsumable(id: string)
      modifies this`owned
      ensures owned == Grant(old(owned), id)
      ensures IsProductPurchased(id)
    {
      var purchases := owned;
      if id !in purchases {
        purchases := purchases + [id];
        owned := purchases;
      }
    }

    function IsAlreadyPurchased(id: string): (r: bool)
      reads this
      ensures r <==> exists i :: 0 <= i < |owned| && owned[i] == id
    {
      id in owned
    }

    function IsProductPurchased(id: string): (r: bool)
      reads this
      ensures r <==> id in owned
    {
      IsAlreadyPurchased(id)
    }

    /** Read-modify-write of one counter; nothing else in the store changes. */
    method AddConsumable(id: string, amount: Int32)
      modifies this`balances
      ensures balances == Credit(old(balances), id, amount)
      ensures InInt32Range(old(GetConsumableAmount(id)) + amount) ==>
        GetConsumableAmount(id) == old(GetConsumableAmount(id)) + amount
    {
      var current := GetConsumableAmount(id);
      balances := balances[id := Wrap32(current + amount)];
    }

    /** An id never credited reads 0; otherwise the stored counter. */
    function GetConsumableAmount(id: string): (r: Int32)
      reads this
      ensures id !in balances ==> r == 0
      ensures id in balances ==> r == balances[id]
    {
      BalanceOf(balances, id)
    }
  }
}

=== FILE: store_adapter.dfy ===
/**
 * What the managers hand to and receive from the Unity purchasing SDK: the store's product
 * kinds, the product definitions a manager registers, the orders the store calls back with, and
 * the answer a purchase handler returns.
 */
module StoreAdapter {
  import opened Primitives
  import opened Catalog

  /** The SDK's own product kinds (`UnityEngine.Purchasing.ProductType`) as the managers use them. */
  datatype StoreProductType = StoreConsumable | StoreNonConsumable

  /** A product registered with the store: its id and store kind. */
  datatype ProductDefinition = ProductDefinition(id: string, storeType: StoreProductType)

  /**
   * The first item of an order's cart, as far as the managers look at it: there is none, it is
   * there but its product reference is null, or it names a product id.
   */
  datatype CartItem = NoItem | NoProduct | Item(id: string)

  /** A store order, reduced to the first item of its cart. */
  datatype Order = Order(transaction: nat, first: CartItem)

  /** `FirstOrDefault()?.Product?.definition.id`: the first item's product id, null when there is none. */
  function ItemId(o: Order): (id: Option<string>)
    ensures id.Some? <==> o.first.Item?
    ensures id.Some? ==> id.value == o.first.id
  {
    if o.first.Item? then Some(o.first.id) else None
  }

  /** What a purchase handler tells the store. */
  datatype PurchaseProcessingResult = Complete | Pending

  /** A non-consumable is registered as one; every other kind as a consumable. */
  function StoreType(t: ProductType): (u: StoreProductType)
    ensures u == StoreNonConsumable <==> t == NonConsumable
  {
    if t == NonConsumable then StoreNonConsumable else StoreConsumable
  }

  /** The definitions registered for a catalog: one per product, in catalog order. */
  function StoreDefinitions(products: seq<RuntimeProduct>): (defs: seq<ProductDefinition>)
    ensures |defs| == |products|
    ensures forall i :: 0 <= i < |products| ==>
      defs[i].id == products[i].Id &&
      (defs[i].storeType == StoreNonConsumable <==> products[i].Type == NonConsumable)
  {
    if products == [] then []
    else
      var n := |products| - 1;
      StoreDefinitions(products[..n]) + [ProductDefinition(products[n].Id, StoreType(products[n].Type))]
  }

  /**
   * The loop that builds the definition list handed to the store (`defs.Add(new
   * ProductDefinition(p.Id, unityType))` for each catalog product).
   */
  method BuildProductDefinitions(products: seq<RuntimeProduct>) returns (defs: seq<ProductDefinition>)
    ensures defs == StoreDefinitions(products)
  {
    defs := [];
    for i := 0 to |products|
      invariant defs == StoreDefinitions(products[..i])
    {
      var p := products[i];
      var unityType := if p.Type == NonConsumable then StoreNonConsumable else StoreConsumable;
      assert products[..i + 1][..i] == products[..i];
      defs := defs + [ProductDefinition(p.Id, unityType)];
    }
    assert products[..|products|] == products;
  }
}

=== FILE: test_store.dfy ===
/**
 * The test manager, which in the editor runs against the SDK's fake store. Its behaviour is the
 * Google Play manager's: it registers the catalog with the store, forwards guarded purchases to
 * the store controller once it is available, and applies the store's purchase callbacks to the
 * ledger.
 */
module TestStore {
  import opened Primitives
  import opened Catalog
  import opened StoreAdapter
  import opened Core

  class TestPurchaseManager {
    /** The inherited manager state. */
    const core: PurchaseManager
    /** `_controller != null`: the store has called `OnInitialized`. */
    var ready: bool
    /** The definition lists passed to `UnityPurchasing.Initialize`. */
    var registrations: seq<seq<ProductDefinition>>
    /** The ids passed to `_controller.InitiatePurchase`. */
    var initiated: seq<string>

    constructor (core: PurchaseManager)
      ensures this.core == core
      ensures !ready && registrations == [] && initiated == []
    {
      this.core := core;
      ready := false;
      registrations := [];
      initiated := [];
    }

    /**
     * Loads the catalog, then registers it with the store. `servicesUp` says whether the
     * services initialisation awaited first succeeded; when it fails nothing is registered.
     */
    method Initialize(source: Option<seq<ProductJson>>, servicesUp: bool)
      modifies core`products, this`registrations
      ensures core.products == if source.None? then old(core.products) else Project(source.value)
      ensures registrations == old(registrations) + if servicesUp then [StoreDefinitions(core.products)] else []
    {
      core.Initialize(source);
      if servicesUp {
        var defs := BuildProductDefinitions(core.products);
        registrations := registrations + [defs];
      }
    }

    /** Refuses while the store is not initialised; otherwise asks the store for the product. */
    method ProcessPlatformPurchase(product: RuntimeProduct)
      modifies core`events, this`initiated
      ensures !ready ==> core.events == old(core.events) + [Failed(Some(product), NotInitialized)]
      ensures !ready ==> initiated == old(initiated)
      ensures ready ==> initiated == old(initiated) + [product.Id] && core.events == old(core.events)
    {
      if !ready {
        core.TriggerPurchaseFailed(Some(product), NotInitialized);
        return;
      }
      initiated := initiated + [product.Id];
    }

    /** The inherited guard followed by this manager's hook. */
    method Purchase(id: string)
      modifies core`events, this`initiated
      ensures !Admits(core.products, core.owned, id) ==>
        initiated == old(initiated) &&
        core.events == old(core.events) + [Rejection(core.products, core.owned, id)]
      ensures Admits(core.products, core.owned, id) && ready ==>
        initiated == old(initiated) + [id] && core.events == old(core.events)
      ensures Admits(core.products, core.owned, id) && !ready ==>
        initiated == old(initiated) &&
        core.events == old(core.events) + [Failed(Find(core.products, KeyOf, id), NotInitialized)]
    {
      var forward := core.Purchase(id);
      if forward.Some? {
        ProcessPlatformPurchase(forward.value);
      }
    }

    method OnInitialized()
      modifies this`ready
      ensures ready
    {
      ready := true;
    }

    /**
     * The store delivers a purchase of `id`. An unknown id is acknowledged and ignored; a
     * known product is saved (non-consumable) or credited one unit (consumable) before the
     * success is raised, so its subscribers already see the updated ledger. Every path answers
     * Complete.
     */
    method ProcessPurchase(id: string) returns (result: PurchaseProcessingResult)
      modifies core`owned, core`balances, core`events, core`notified
      ensures result == Complete
      ensures Find(core.products, KeyOf, id).None? ==>
        core.owned == old(core.owned) && core.balances == old(core.balances) &&
        core.events == old(core.events) && core.notified == old(core.notified)
      ensures Find(core.products, KeyOf, id).Some? ==>
        var p := Find(core.products, KeyOf, id).value;
        core.owned == OwnedAfterDelivery(old(core.owned), p) &&
        core.balances == BalancesAfterDelivery(old(core.balances), p) &&
        core.events == old(core.events) + [Success(p)] &&
        core.notified == old(core.notified) + [LedgerView(core.owned, core.balances)]
      ensures Find(core.products, KeyOf, id).Some? && Find(core.products, KeyOf, id).value.Type == NonConsumable ==>
        id in core.notified[|core.notified| - 1].owned
    {
      var product := Find(core.products, KeyOf, id);
      if product.None? {
        return Complete;
      }
      var p := product.value;
      if p.Type == NonConsumable {
        core.SaveNonConsumable(p.Id);
      } else if p.Type == Consumable {
        core.AddConsumable(p.Id, 1);
      }
      core.TriggerPurchaseSuccess(p);
      return Complete;
    }

    /** The store reports a failed purchase of `id`: the failure is raised, the ledger untouched. */
    method OnPurchaseFailed(id: string, reason: string)
      modifies core`events
      ensures core.events == old(core.events) + [Failed(Find(core.products, KeyOf, id), reason)]
    {
      var product := Find(core.products, KeyOf, id);
      core.TriggerPurchaseFailed(product, reason);
    }
  }
}

=== FILE: universal.dfy ===
/**
 * The manager over the store controller API: it registers the catalog once connected, forwards
 * guarded purchases, grants and confirms pending orders, and silently restores owned
 * non-consumables from the store's confirmed orders.
 */
module Universal {
  import opened Primitives
  import opened Catalog
  import opened StoreAdapter
  import opened Core

  /** The catalog product an order's item id names; a null id names none. */
  function LookupItem(products: seq<RuntimeProduct>, itemId: Option<string>): (r: Option<RuntimeProduct>)
    ensures itemId.None? ==> r.None?
    ensures r.Some? ==> r.value in products && itemId == Some(r.value.Id)
    ensures itemId.Some? ==> (r.Some? <==> exists i :: 0 <= i < |products| && products[i].Id == itemId.value)
    ensures r.Some? ==> exists k :: FirstMatchAt(products, KeyOf, r.value.Id, k) && products[k] == r.value
  {
    if itemId.None? then None else Find(products, KeyOf, itemId.value)
  }

  /** The catalog lists `id`, and its first entry with that id is a non-consumable. */
  predicate IsKnownNonConsumable(products: seq<RuntimeProduct>, id: string)
    ensures IsKnownNonConsumable(products, id) <==>
      exists k :: FirstMatchAt(products, KeyOf, id, k) && products[k].Type == NonConsumable
  {
    var p := Find(products, KeyOf, id);
    p.Some? && p.value.Type == NonConsumable
  }

  /** The ids a restore saves, in order: the orders' item ids that are known non-consumables. */
  function RestoredIds(products: seq<RuntimeProduct>, orders: seq<Order>): (ids: seq<string>)
    ensures forall x :: x in ids <==>
      IsKnownNonConsumable(products, x) &&
      exists k :: 0 <= k < |orders| && ItemId(orders[k]) == Some(x)
  {
    if orders == [] then []
    else
      var n := |orders| - 1;
      var earlier := RestoredIds(products, orders[..n]);
      assert forall k :: 0 <= k < n ==> orders[..n][k] == orders[k];
      var id := ItemId(orders[n]);
      if id.Some? && IsKnownNonConsumable(products, id.value) then earlier + [id.value] else earlier
  }

  /** Restoring orders whose non-consumables are all owned already leaves the ledger as it was. */
  lemma RestoreOfOwnedChangesNothing(products: seq<RuntimeProduct>, owned: seq<string>, orders: seq<Order>)
    requires forall k ::
      (0 <= k < |orders| && ItemId(orders[k]).Some? && IsKnownNonConsumable(products, ItemId(orders[k]).value))
      ==> ItemId(orders[k]).value in owned
    ensures GrantAll(owned, RestoredIds(products, orders)) == owned
  {
    GrantAllOwned(owned, RestoredIds(products, orders));
  }

  /** Restoring the same orders twice ends where restoring them once did. */
  lemma RestoreIdempotent(products: seq<RuntimeProduct>, owned: seq<string>, orders: seq<Order>)
    ensures var once := GrantAll(owned, RestoredIds(products, orders));
      GrantAll(once, RestoredIds(products, orders)) == once
  {
    GrantAllIdempotent(owned, RestoredIds(products, orders));
  }

  /**
   * How many orders a restore gets through: the index of the first order whose first item has
   * no product, or all of them when there is none.
   */
  function RestoreReach(orders: seq<Order>): (k: nat)
    ensures k <= |orders|
    ensures forall j :: 0 <= j < k ==> !orders[j].first.NoProduct?
    ensures k < |orders| ==> orders[k].first.NoProduct?
  {
    if orders == [] || orders[0].first.NoProduct? then 0
    else
      assert forall j :: 1 <= j < |orders| ==> orders[1..][j - 1] == orders[j];
      1 + RestoreReach(orders[1..])
  }

  /** An index up to which no order lacks a product, and at which one does or the orders end, is the reach. */
  lemma RestoreReachIsFirst(orders: seq<Order>, i: nat)
    requires i <= |orders|
    requires forall j :: 0 <= j < i ==> !orders[j].first.NoProduct?
    requires i < |orders| ==> orders[i].first.NoProduct?
    ensures RestoreReach(orders) == i
  {
  }

  class UniversalPurchaseManager {
    /** The inherited manager state. */
    const core: PurchaseManager
    /** `_storeController != null`: the store controller has been obtained. */
    var ready: bool
    /** The definition lists passed to `FetchProducts`. */
    var fetches: seq<seq<ProductDefinition>>
    /** The ids passed to `PurchaseProduct`. */
    var requested: seq<string>
    /** The orders passed to `ConfirmPurchase`. */
    var confirmed: seq<Order>

    constructor (core: PurchaseManager)
      ensures this.core == core
      ensures !ready && fetches == [] && requested == [] && confirmed == []
    {
      this.core := core;
      ready := false;
      fetches := [];
      requested := [];
      confirmed := [];
    }

    /**
     * Loads the catalog, then sets up the store. `servicesUp` says whether the services
     * initialisation succeeded and `connects` whether `Connect` then did. The controller is
     * obtained before connecting, so it is available even when the connection fails; the
     * catalog is fetched only after a successful connection.
     */
    method Initialize(source: Option<seq<ProductJson>>, servicesUp: bool, connects: bool)
      modifies core`products, this`ready, this`fetches
      ensures core.products == if source.None? then old(core.products) else Project(source.value)
      ensures ready == (old(ready) || servicesUp)
      ensures fetches == old(fetches) + if servicesUp && connects then [StoreDefinitions(core.products)] else []
    {
      core.Initialize(source);
      if servicesUp {
        ready := true;
        if connects {
          var defs := BuildProductDefinitions(core.products);
          fetches := fetches + [defs];
        }
      }
    }

    /** Refuses while there is no store controller; otherwise asks it to buy the product. */
    method ProcessPlatformPurchase(product: RuntimeProduct)
      modifies core`events, this`requested
      ensures !ready ==> core.events == old(core.events) + [Failed(Some(product), NotInitialized)]
      ensures !ready ==> requested == old(requested)
      ensures ready ==> requested == old(requested) + [product.Id] && core.events == old(core.events)
    {
      if !ready {
        core.TriggerPurchaseFailed(Some(product), NotInitialized);
        return;
      }
      requested := requested + [product.Id];
    }

    /** The inherited guard followed by this manager's hook. */
    method Purchase(id: string)
      modifies core`events, this`requested
      ensures !Admits(core.products, core.owned, id) ==>
        requested == old(requested) &&
        core.events == old(core.events) + [Rejection(core.products, core.owned, id)]
      ensures Admits(core.products, core.owned, id) && ready ==>
        requested == old(requested) + [id] && core.events == old(core.events)
      ensures Admits(core.products, core.owned, id) && !ready ==>
        requested == old(requested) &&
        core.events == old(core.events) + [Failed(Find(core.products, KeyOf, id), NotInitialized)]
    {
      var forward := core.Purchase(id);
      if forward.Some? {
        ProcessPlatformPurchase(forward.value);
      }
    }

    /**
     * The store reports a pending order. A null or unknown item id is confirmed and ignored; a
     * known product is saved when it is a non-consumable (a consumable is credited nothing), its
     * success is raised (its subscribers already see the save), and the order is confirmed.
     * Every path confirms the order once.
     */
    method OnPurchasePending(order: Order)
      modifies core`owned, core`events, core`notified, this`confirmed
      ensures confirmed == old(confirmed) + [order]
      ensures LookupItem(core.products, ItemId(order)).None? ==>
        core.owned == old(core.owned) && core.events == old(core.events) && core.notified == old(core.notified)
      ensures LookupItem(core.products, ItemId(order)).Some? ==>
        var p := LookupItem(core.products, ItemId(order)).value;
        core.owned == OwnedAfterDelivery(old(core.owned), p) &&
        core.events == old(core.events) + [Success(p)] &&
        core.notified == old(core.notified) + [LedgerView(core.owned, core.balances)]
      ensures (LookupItem(core.products, ItemId(order)).Some? &&
               LookupItem(core.products, ItemId(order)).value.Type == NonConsumable) ==>
        ItemId(order).value in core.notified[|core.notified| - 1].owned
    {
      var id := ItemId(order);
      if id.None? {
        confirmed := confirmed + [order];
        return;
      }
      var product := Find(core.products, KeyOf, id.value);
      if product.None? {
        confirmed := confirmed + [order];
        return;
      }
      if product.value.Type == NonConsumable {
        core.SaveNonConsumable(id.value);
      }
      core.TriggerPurchaseSuccess(product.value);
      confirmed := confirmed + [order];
    }

    /**
     * Restore: the confirmed orders are walked in order and each one naming a known
     * non-consumable is saved; nothing is raised. Reading the id dereferences the first item's
     * product without a null check, so an order whose first item has no product throws there:
     * the walk stops, and the saves made before it stay in the store.
     */
    method OnPurchasesFetched(orders: seq<Order>) returns (thrown: bool)
      modifies core`owned
      ensures thrown <==> exists k :: 0 <= k < |orders| && orders[k].first.NoProduct?
      ensures core.owned == GrantAll(old(core.owned), RestoredIds(core.products, orders[..RestoreReach(orders)]))
    {
      for i := 0 to |orders|
        invariant forall j :: 0 <= j < i ==> !orders[j].first.NoProduct?
        invariant core.owned == GrantAll(old(core.owned), RestoredIds(core.products, orders[..i]))
      {
        if orders[i].first.NoProduct? {
          RestoreReachIsFirst(orders, i);
          return true;
        }
        assert orders[..i + 1][..i] == orders[..i];
        var id := ItemId(orders[i]);
        var product := LookupItem(core.products, id);
        if product.None? {
          continue;
        }
        if product.value.Type == NonConsumable {
          core.SaveNonConsumable(id.value);
        }
      }
      RestoreReachIsFirst(orders, |orders|);
      assert orders[..|orders|] == orders;
      thrown := false;
    }

    /** The store reports a failed order: the failure is raised with the product it names, if any. */
    method OnPurchasesFailed(order: Order, reason: string)
      modifies core`events
      ensures core.events == old(core.events) + [Failed(LookupItem(core.products, ItemId(order)), reason)]
    {
      var product := LookupItem(core.products, ItemId(order));
      core.TriggerPurchaseFailed(product, reason);
    }
  }
}
